=== FILE: README.md ===
# HTTP polling helper of the examples test suite

This project models `assertHTTPResultWithRetry` from the Go end-to-end test
suite of the examples repository, together with its two wrappers
`assertHTTPResult` and `assertHTTPHelloWorld`. The helper takes a stack output,
which must be a string address. It defaults the scheme to `http://` and builds
a GET request, routing a `host` header onto the request's Host field. It polls
the address until it gets status 200 or `maxWait` has elapsed, backing off
between attempts. Finally it hands the last response body to a caller-supplied
check.

The network is a script of attempts. Each attempt is an `Attempt(now, outcome)`:
`now` is the clock reading taken at the start of the attempt, and the outcome
is a transport error or a response with a status and a readable or unreadable
body. Times are integer nanoseconds, like Go's `time.Duration`. Sleeps are
whole seconds, like the helper's `sleep` counter. A call yields a `Run`: why
it stopped, the requests handed to the client, the sleeps taken, the body given
to `check`, and the returned boolean.

Modules:

- `Backoff`: the delay recurrence and its closed form.
- `Url`: scheme defaulting.
- `Headers`: the request, the host-key test and header routing.
- `Polling`: the per-attempt verdict, the loop, the wrappers and the properties of whole runs.
- `Wrappers`: `Option`.

`Polling.Conforms` is the declarative contract of one call. It is a statement
about the script, not a second copy of the loop. Go ranges over the header map
afresh on every attempt, and map order is unspecified, so the contract asks of
each request only that some visiting order builds it (`Headers.Routed`).
`Polling.ConformsDeterministic` shows that the contract fixes everything else
about the run, and fixes the whole run when at most one key is host-like. The
loop method is proved to meet it; it visits the map in the one order given.

## Code as written

The model follows the Go code. In four places the code differs from its own
comment or from a casual reading:

- The delay does not settle at 30 s. The comment says it does, but the guard
  is `sleep > 30`, so the delays run 10, 20, 30, 40, 30, 40, … seconds.
- A transport error from `client.Do` is not retried. The `assert.NoError`
  right after the call returns `false` at once.
- The error check after the loop can never fail. Inside the loop, `req, err :=`
  declares a new `err`, so the outer `err` is never assigned before the check
  at :282. Even without the shadowing, `err` is nil at every `break`. The model
  keeps the outer `err`, assigns nothing to it before the check, and proves the
  branch that tests it unreachable.
- A loop that ends by timeout still reads the last, non-200 response and
  passes its body to `check`.

## Model

| member | source | states |
|---|---|---|
| Backoff.NextDelay | misc/test/examples_test.go:272-277 | one update of the delay counter: the next sleep lasts 10 to 40 s whatever the counter held; a counter of at most 30 grows, a larger one drops back |
| Backoff.DelayAfter | misc/test/examples_test.go:227-277 | with `sleep` starting at 0, the counter is 0 exactly before the first retry, and every retry's sleep lasts 10 to 40 s |
| Backoff.DelayClosedForm | misc/test/examples_test.go:227-277 | the delay after n failed attempts, starting from `sleep = 0`, is 10·n up to the fourth retry, then 40 on even and 30 on odd retries |
| Backoff.DelayAlternates | misc/test/examples_test.go:272-277 | from the fourth retry on the delay alternates 40, 30, not the steady 30 s the comment announces |
| Backoff.DelayNeverSettles | misc/test/examples_test.go:272-277 | from the fourth retry on, consecutive delays differ and sum to 70 s |
| Backoff.FirstTenDelays | misc/test/examples_test.go:227-278 | the first nine retries sleep 270 s and the first ten 310 s, more than five minutes |
| Url.Normalize | misc/test/examples_test.go:218-220 | the address always starts with `http://` or `https://`; an address that already has one is unchanged; any other gets `http://` prepended and keeps the original as its suffix |
| Url.NormalizeIdempotent | misc/test/examples_test.go:218-220 | normalising twice equals normalising once |
| Url.NormalizeAddsAtMostScheme | misc/test/examples_test.go:218-220 | the address changes exactly when it names neither scheme, and then grows by the seven characters of `http://` |
| Url.NoSchemeUnlessLowerH | misc/test/examples_test.go:218-220 | an address that is empty or does not start with a lower-case `h` always gets `http://` prepended |
| Url.NormalizeBareHost | misc/test/examples_test.go:218-220 | `example.com` becomes `http://` followed by `example.com`; the scheme test is case-sensitive, so `HTTPS://example.com` also gets `http://` prepended |
| Url.NormalizeKeepsHttps | misc/test/examples_test.go:218-220 | `https://example.com` is left alone (no double prefix) |
| Headers.IsHostKeyLower | misc/test/examples_test.go:238 | the letter-by-letter host test is exactly `strings.ToLower(k) == "host"` |
| Headers.HostKeyCharacterization | misc/test/examples_test.go:238 | a key is routed to the Host field exactly when it is `host` in some mix of upper and lower case |
| Headers.SetHeader | misc/test/examples_test.go:238-242 | one turn of the header loop: a host-like key sets the Host field and leaves the header map alone; any other key, kept as given rather than canonicalised, sets exactly that key to its value; the address and every other header are unchanged |
| Headers.ApplyHeaders | misc/test/examples_test.go:235-243 | the header loop keeps the URL; the header map gains exactly the non-host keys as given (not canonicalised), each with its own value, and keeps everything else; the Host field is unchanged when there is no host-like key and otherwise holds some host-like key's value |
| Headers.Route | misc/test/examples_test.go:230-243 | a request built in any visiting order has the normalised URL, a header map holding exactly the caller's non-host pairs and no host-like key, and a Host override exactly when a host-like key was given, set to one of those keys' values |
| Headers.RoutedUnique | misc/test/examples_test.go:235-243 | with at most one host-like key, every visiting order builds the same request |
| Headers.RouteSingleHost | misc/test/examples_test.go:235-243 | with exactly one host-like key, the Host field is that key's value |
| Headers.RouteLastHostWins | misc/test/examples_test.go:235-242 | of the host-like keys, the one visited last sets the Host field |
| Headers.AnyHostValueReachable | misc/test/examples_test.go:235-243 | every host-like key's value is the Host field of the request built in some visiting order |
| Headers.TwoHostKeys | misc/test/examples_test.go:235-243 | with `Host` and `host` both in the map, the two visiting orders build requests with different Host fields |
| Headers.RouteNoHeaders | misc/test/examples_test.go:295-299 | with no headers (the nil map of `assertHTTPHelloWorld`) the request is exactly the one `http.NewRequest` returned |
| Headers.RoutedNoHeaders | misc/test/examples_test.go:295-299 | with no headers, the request `http.NewRequest` returned is the only one any visiting order builds |
| Polling.Verdict | misc/test/examples_test.go:247-270 | after an attempt the loop stops on a transport error; else stops with success exactly on status 200; else stops with a timeout exactly when the elapsed time at the attempt's start is at least `maxWait`; else it continues |
| Polling.ReadAndCheck | misc/test/examples_test.go:285-292 | after the loop, an unreadable body fails the call without calling `check`; a readable one is passed to `check`, whose answer is the result |
| Polling.SendUntilExit | misc/test/examples_test.go:227-278 | the `for true` loop: it gives up at once exactly when the request cannot be built; each failed attempt adds one sleep along the back-off recurrence, of 10 to 40 s; it leaves at the first attempt whose verdict is an exit, having sent one request per attempt |
| Polling.RetryLoop | misc/test/examples_test.go:224-292 | a request-construction error returns false before any request is sent; otherwise every request sent is one some visiting order of the header map builds, each failed attempt adds one sleep along the back-off recurrence, the loop leaves at the first attempt whose verdict is an exit, and `check` is applied once to the last body on a 200 or timeout exit |
| Polling.AssertHttpResultWithRetry | misc/test/examples_test.go:213-293 | a non-string output returns false with no request sent; otherwise the call meets the contract of the loop on the normalised address; every sleep lies in 10..40 s; under a real clock the retry count stays below `maxWait`/10 s + 1 and a long enough non-empty script always reaches a decision |
| Polling.ElapsedAtLeast | misc/test/examples_test.go:267-278 | when each retry starts at least its sleep after the previous attempt, attempt n starts at least 10 s·n after the start time |
| Polling.RetriesBounded | misc/test/examples_test.go:267-278 | under such a clock, if k attempts all continued then 10 s·(k−1) is below `maxWait` |
| Polling.ElapsedAtLeastDelays | misc/test/examples_test.go:267-278 | under such a clock, attempt n starts no earlier than the sum of the first n back-off sleeps after the start time |
| Polling.FiveMinuteRetriesAtMostTen | misc/test/examples_test.go:209-278 | with a five-minute `maxWait` under such a clock, at most ten attempts send the loop round again |
| Polling.PacedRunBounds | misc/test/examples_test.go:267-278 | the same bound read off any run of the loop, and such a run never runs off a non-empty script of at least `maxWait`/10 s + 1 attempts |
| Polling.PolledStopsAtFirstExit | misc/test/examples_test.go:264-271 | the number of retries is exactly the index of the first attempt that ends the loop, and the stop reason is that attempt's verdict |
| Polling.TransportErrorNotRetried | misc/test/examples_test.go:247-250 | a transport error on any attempt ends the call with false, no further retry and no call to `check` |
| Polling.PassedOnlyOnCheckedBody | misc/test/examples_test.go:285-292 | the loop returns true exactly when it read a body and `check` accepted it |
| Polling.PolledDeterministic | misc/test/examples_test.go:228-292 | two runs meeting the loop's contract agree on the stop, the sleeps, the number of requests, the body checked and the result; with at most one host-like key they are equal |
| Polling.ConformsDeterministic | misc/test/examples_test.go:213-293 | the same for the contract of the whole call |
| Polling.AssertHttpResult | misc/test/examples_test.go:209-211 | `assertHTTPResult` is the helper with `maxWait` fixed at five minutes; under a real clock it retries at most 10 times (and so at most the generic 30) |
| Polling.AssertHttpHelloWorld | misc/test/examples_test.go:295-299 | sends requests without headers or Host override, and passes exactly when the body given to the check is `Hello, World!` followed by a newline |
| Polling.SucceedsOnFirst200 | misc/test/examples_test.go:264-292 | after k attempts that continued, a 200 answer with a readable body on attempt k gives the run with k sleeps along the back-off recurrence, k + 1 requests that some visiting order builds, status-200 stop, and `check` applied to exactly that body |
| Polling.TimesOutWithBody | misc/test/examples_test.go:264-292 | after k attempts that continued, a non-200 answer on attempt k that starts once `maxWait` has elapsed ends the loop with a timeout, and its body is still handed to `check`, whose answer is the result |
| Polling.RampSleeps | misc/test/examples_test.go:272-278 | a run with one retry slept 10 s; one with two retries slept 10 s and then 20 s |
| Polling.HelloWorldAfterTwoRetries | misc/test/examples_test.go:228-299 | a server answering two non-200 statuses within five minutes and then 200 with the greeting: `assertHTTPHelloWorld` passes after three requests and sleeps of 10 s and 20 s |
| Polling.TimeoutChecksErrorPage | misc/test/examples_test.go:264-299 | with a 1 s `maxWait`, a 500 at the start is retried after 10 s and the second 500 times out; its page carries the greeting, reaches the check, and the call passes |
| Polling.SecondAttemptSucceeds | misc/test/examples_test.go:228-292 | one retry and then a 200: the run with any two requests that visiting orders build, one 10 s sleep and the second body checked meets the loop's contract |
| Polling.HostMayVaryAcrossAttempts | misc/test/examples_test.go:234-243 | with `Host` and `host` both in the map, the loop's contract admits a run whose first and retried requests carry different Host fields |

## Left out

- `TestExamples` (misc/test/examples_test.go:23-207) is left out. It builds a table of test configurations and reads environment variables, then hands them to an external integration framework.
- The step-2 validation callback (misc/test/examples_test.go:96-145) is left out. It does kubeconfig marshalling, temporary files, environment changes and cleanup scripts through an external EKS utility.
- aws-ts-eks-migrate-nodegroups/index.ts is left out. It only declares cloud resources through external libraries.
- Real HTTP I/O, the client's 10 s timeout, `time.Sleep`, `time.Now` and `fmt.Printf` logging are not modelled. The script of attempts and their timestamps replaces them. A client timeout shows up as a transport-error outcome, or as an unreadable body (`ReadError`) when it expires while the last body is read.
- `http.NewRequest` is not modelled beyond the caller-supplied predicate `urlParses`. It decides, from the normalised address alone, whether construction fails. URL parsing rules are not modelled.
- Headers.SetHeader: stores a non-host key as given. `Header.Set` in net/http stores `CanonicalMIMEHeaderKey(k)` with a one-element value list, so keys that differ only in case collide in Go but not in the model.
- Headers.ApplyHeaders: inherits that gap. For keys that differ only in case, the model's header map keeps each one, where Go keeps one canonical key holding the value visited last.
- Headers.Route: inherits that gap through `ApplyHeaders`.
- Headers.NewRequest: only defines what `http.NewRequest` returns: the address, the Host field left to the URL (`None`), and an empty header map. URL parsing and the other request fields are not modelled; `Headers.RoutedNoHeaders` relates it to routing.
- Polling.RetryLoop: the method visits the header map in the one order given on every pass, where Go may pick a new order per pass. Its contract, `Polled`, still allows a different order for each request.
- Headers.Lower: lower-cases only ASCII letters. `strings.ToLower` lower-cases every letter, but no other character lower-cases to a letter of `host`, so the host test is unaffected.
- `testify` reporting (failure messages, marking the test failed) is not modelled. Each assertion is the boolean it returns.
- Go's int64 `time.Duration` arithmetic is not modelled. This covers the saturation of `now.Sub` and overflow in `time.Duration(sleep) * time.Second`. Times are unbounded integers, and the values involved are far from the limits.
- Converting the body bytes to a `string` is not modelled, and neither is closing the response body. A body is text or a read error.
- The `OutOfScript` stop belongs to the model, not the source. It marks a script that ends before the loop decides. Under a real clock, a non-empty script of at least `maxWait`/10 s + 1 attempts never reaches it. With a negative `maxWait` that bound can be below one, and the empty script still reaches it.
- Polling.AssertHttpResultWithRetry: the retry bound assumes a clock on which each retry starts at least its sleep after the previous attempt. The model does not derive this from `time.Sleep`.

=== FILE: backoff.dfy ===
/**
 * The delay between polling attempts in misc/test/examples_test.go.
 *
 * The counter `sleep` starts at 0 and, after every failed attempt, is updated
 * before the helper sleeps that many seconds. The guard is `sleep > 30`, so the
 * delays are 10, 20, 30, 40, 30, 40, ... seconds: they do not settle at 30.
 */
module Backoff {

  /** One update of the delay counter (seconds) after a failed attempt: whatever it held, the next sleep lasts 10 to 40 s. */
  function NextDelay(sleep: nat): (next: nat)
    ensures 10 <= next <= 40
    ensures sleep <= 30 ==> next > sleep
    ensures sleep > 30 ==> next < sleep
  {
    if sleep > 30 then 30 else sleep + 10
  }

  /** The value of the delay counter after `n` failed attempts; the n-th sleep lasts this long. */
  function DelayAfter(n: nat): (delay: nat)
    ensures n == 0 <==> delay == 0
    ensures n > 0 ==> 10 <= delay <= 40
  {
    if n == 0 then 0 else NextDelay(DelayAfter(n - 1))
  }

  /** Closed form of the recurrence: a ramp of 10 s steps up to 40 s, then 30 and 40 alternating. */
  function ExpectedDelay(n: nat): nat
  {
    if n <= 4 then 10 * n
    else if n % 2 == 0 then 40
    else 30
  }

  /** The recurrence agrees with its closed form on every retry count. */
  lemma {:induction false} DelayClosedForm(n: nat)
    ensures DelayAfter(n) == ExpectedDelay(n)
  {
    if n > 0 {
      DelayClosedForm(n - 1);
    }
  }

  /** From the fourth retry on, the delay alternates 40, 30, 40, ... */
  lemma {:induction false} DelayAlternates(n: nat)
    requires n >= 4
    ensures DelayAfter(n) == (if n % 2 == 0 then 40 else 30)
  {
    DelayClosedForm(n);
  }

  /** The delay never stays at 30 s: from the fourth retry on, consecutive delays differ. */
  lemma {:induction false} DelayNeverSettles(n: nat)
    requires n >= 4
    ensures DelayAfter(n + 1) != DelayAfter(n)
    ensures DelayAfter(n + 1) + DelayAfter(n) == 70
  {
    DelayAlternates(n);
    DelayAlternates(n + 1);
  }

  /** The seconds slept in the first `n` retries: at least 10 s per retry. */
  function TotalDelay(n: nat): (total: nat)
    ensures total >= 10 * n
  {
    if n == 0 then 0 else TotalDelay(n - 1) + DelayAfter(n)
  }

  /** The first ten retries sleep 310 s in all, more than five minutes. */
  lemma {:induction false} FirstTenDelays()
    ensures TotalDelay(9) == 270
    ensures TotalDelay(10) == 310
  {
    DelayClosedForm(1); DelayClosedForm(2); DelayClosedForm(3); DelayClosedForm(4); DelayClosedForm(5);
    DelayClosedForm(6); DelayClosedForm(7); DelayClosedForm(8); DelayClosedForm(9); DelayClosedForm(10);
    assert TotalDelay(1) == 10;
    assert TotalDelay(2) == 30;
    assert TotalDelay(3) == 60;
    assert TotalDelay(4) == 100;
    assert TotalDelay(5) == 130;
    assert TotalDelay(6) == 170;
    assert TotalDelay(7) == 200;
    assert TotalDelay(8) == 240;
  }
}

=== FILE: headers.dfy ===
/**
 * The GET request the helper builds on every attempt, and the routing of the
 * caller's headers onto it: a key that lower-cases to `host` overrides the
 * request's Host field, because net/http ignores a Host entry in the header
 * map; every other key is set in the header map.
 */
module Headers {
  import opened Wrappers

  /**
   * A GET request as far as the helper shapes it. `host` is the override the
   * helper assigns to `req.Host`; None means the host named in `url` is used.
   */
  datatype Request = Request(url: string, host: Option<string>, header: map<string, string>)

  /** The caller's header map, in the (arbitrary) order Go's `range` visits it. */
  type HeaderList = seq<(string, string)>

  /** A Go map has each key at most once, whatever order it is visited in. */
  predicate DistinctKeys(pairs: HeaderList)
  {
    forall i, j :: 0 <= i < j < |pairs| ==> pairs[i].0 != pairs[j].0
  }

  /** The request `http.NewRequest` returns: the given URL, no host override, no headers. */
  function NewRequest(url: string): (req: Request)
    ensures req.url == url && req.host.None? && |req.header| == 0
  {
    Request(url, None, map[])
  }

  function LowerChar(c: char): char
  {
    if 'A' <= c <= 'Z' then (c as int + 32) as char else c
  }

  /**
   * Lower-casing of ASCII letters. `strings.ToLower` also lower-cases other
   * letters, but no character other than `H`, `O`, `S`, `T` lower-cases to a
   * letter of `host`, so the comparison below is the same.
   */
  function Lower(s: string): (t: string)
    ensures |t| == |s|
  {
    seq(|s|, i requires 0 <= i < |s| => LowerChar(s[i]))
  }

  /**
   * The key is routed to the Host field rather than to the header map: it
   * lower-cases to `host`, compared letter by letter (see `IsHostKeyLower`).
   */
  predicate IsHostKey(k: string)
  {
    |k| == 4 && LowerChar(k[0]) == 'h' && LowerChar(k[1]) == 'o' && LowerChar(k[2]) == 's' && LowerChar(k[3]) == 't'
  }

  /** The letter-by-letter test is the helper's `strings.ToLower(k) == "host"`. */
  lemma IsHostKeyLower(k: string)
    ensures IsHostKey(k) <==> Lower(k) == "host"
  {
    if IsHostKey(k) {
      assert Lower(k) == "host";
    }
    if Lower(k) == "host" {
      assert Lower(k)[0] == 'h' && Lower(k)[1] == 'o' && Lower(k)[2] == 's' && Lower(k)[3] == 't';
    }
  }

  /** Independent statement of the host test: exactly the four-letter spellings of `host` in any case. */
  lemma HostKeyCharacterization(k: string)
    ensures IsHostKey(k) <==>
      |k| == 4 && k[0] in {'h', 'H'} && k[1] in {'o', 'O'} && k[2] in {'s', 'S'} && k[3] in {'t', 'T'}
  {
    if IsHostKey(k) {
      assert Lower(k)[0] == 'h' && Lower(k)[1] == 'o' && Lower(k)[2] == 's' && Lower(k)[3] == 't';
    }
    if |k| == 4 && k[0] in {'h', 'H'} && k[1] in {'o', 'O'} && k[2] in {'s', 'S'} && k[3] in {'t', 'T'} {
      assert Lower(k) == "host";
    }
  }

  /** One turn of the `range headers` loop. */
  function SetHeader(req: Request, key: string, value: string): (r: Request)
    ensures r.url == req.url
    ensures IsHostKey(key) ==> r.host == Some(value) && r.header == req.header
    ensures !IsHostKey(key) ==> r.host == req.host && r.header.Keys == req.header.Keys + {key}
    ensures !IsHostKey(key) ==> r.header[key] == value
    ensures forall k :: k in req.header && k != key ==> r.header[k] == req.header[k]
  {
    if IsHostKey(key) then req.(host := Some(value)) else req.(header := req.header[key := value])
  }

  /** Keys of the list that end up in the header map. */
  function HeaderKeys(pairs: HeaderList): set<string>
  {
    set p | p in pairs && !IsHostKey(p.0) :: p.0
  }

  /** Values of the list that are candidates for the Host field. */
  function HostValues(pairs: HeaderList): set<string>
  {
    set p | p in pairs && IsHostKey(p.0) :: p.1
  }

  /**
   * What Go promises about the request built from the header map `pairs`,
   * whatever order `range` visits it in: the URL is kept, the header map holds
   * exactly the pairs whose key is not host-like, and the Host field holds the
   * value of some host-like key, or is left alone when there is none.
   */
  predicate Routed(q: Request, url: string, pairs: HeaderList)
  {
    && q.url == url
    && q.header.Keys == HeaderKeys(pairs)
    && (forall p :: p in pairs && !IsHostKey(p.0) ==> p.0 in q.header && q.header[p.0] == p.1)
    && (if HostValues(pairs) == {} then q.host == None else q.host.Some? && q.host.value in HostValues(pairs))
  }

  /** The map has at most one key that lower-cases to `host`. */
  predicate AtMostOneHostKey(pairs: HeaderList)
  {
    forall i, j :: 0 <= i < |pairs| && 0 <= j < |pairs| && IsHostKey(pairs[i].0) && IsHostKey(pairs[j].0) ==> i == j
  }

  /** The whole `range headers` loop applied to `req`, in the visiting order of `pairs`. */
  function ApplyHeaders(req: Request, pairs: HeaderList): (r: Request)
    requires DistinctKeys(pairs)
    ensures r.url == req.url
    ensures r.header.Keys == req.header.Keys + HeaderKeys(pairs)
    ensures forall p :: p in pairs && !IsHostKey(p.0) ==> r.header[p.0] == p.1
    ensures forall k :: k in req.header && k !in HeaderKeys(pairs) ==> r.header[k] == req.header[k]
    ensures HostValues(pairs) == {} ==> r.host == req.host
    ensures HostValues(pairs) != {} ==> r.host.Some? && r.host.value in HostValues(pairs)
    decreases |pairs|
  {
    if |pairs| == 0 then req
    else
      var init := pairs[..|pairs| - 1];
      var last := pairs[|pairs| - 1];
      SplitLast(pairs);
      var prev := ApplyHeaders(req, init);
      var r := SetHeader(prev, last.0, last.1);
      assert forall p :: p in pairs && !IsHostKey(p.0) ==> r.header[p.0] == p.1 by {
        forall p | p in pairs && !IsHostKey(p.0)
          ensures r.header[p.0] == p.1
        {
          if p != last {
            var i :| 0 <= i < |pairs| && pairs[i] == p;
            assert i < |pairs| - 1 && init[i] == p && p.0 != last.0;
          }
        }
      }
      r
  }

  /** How the key and value sets grow when one more pair is visited. */
  lemma SplitLast(pairs: HeaderList)
    requires |pairs| > 0
    ensures var last := pairs[|pairs| - 1];
      && HeaderKeys(pairs) == HeaderKeys(pairs[..|pairs| - 1]) + (if IsHostKey(last.0) then {} else {last.0})
      && HostValues(pairs) == HostValues(pairs[..|pairs| - 1]) + (if IsHostKey(last.0) then {last.1} else {})
  {
    var init := pairs[..|pairs| - 1];
    assert pairs == init + [pairs[|pairs| - 1]];
  }

  /** The request the helper sends: the normalised address plus the caller's headers, visited in the order of `pairs`. */
  function Route(url: string, pairs: HeaderList): (r: Request)
    requires DistinctKeys(pairs)
    ensures Routed(r, url, pairs)
    ensures forall k :: k in r.header ==> !IsHostKey(k)
  {
    ApplyHeaders(NewRequest(url), pairs)
  }

  /** With at most one host-like key, Go's guarantee fixes the request: every visiting order builds the same one. */
  lemma RoutedUnique(q1: Request, q2: Request, url: string, pairs: HeaderList)
    requires AtMostOneHostKey(pairs)
    requires Routed(q1, url, pairs) && Routed(q2, url, pairs)
    ensures q1 == q2
  {
    forall k | k in q1.header
      ensures k in q2.header && q1.header[k] == q2.header[k]
    {
      var p :| p in pairs && !IsHostKey(p.0) && p.0 == k;
    }
    assert q1.header == q2.header;
    if HostValues(pairs) != {} {
      var p1 :| p1 in pairs && IsHostKey(p1.0) && p1.1 == q1.host.value;
      var p2 :| p2 in pairs && IsHostKey(p2.0) && p2.1 == q2.host.value;
      var i1 :| 0 <= i1 < |pairs| && pairs[i1] == p1;
      var i2 :| 0 <= i2 < |pairs| && pairs[i2] == p2;
    }
  }

  /** With exactly one host-like key, the Host field is that key's value. */
  lemma RouteSingleHost(url: string, pairs: HeaderList, i: nat)
    requires DistinctKeys(pairs)
    requires i < |pairs| && IsHostKey(pairs[i].0)
    requires forall j :: 0 <= j < |pairs| && j != i ==> !IsHostKey(pairs[j].0)
    ensures Route(url, pairs).host == Some(pairs[i].1)
  {
    assert HostValues(pairs) == {pairs[i].1};
  }

  /** Of the host-like keys, the one visited last sets the Host field. */
  lemma RouteLastHostWins(url: string, pairs: HeaderList)
    requires DistinctKeys(pairs)
    requires |pairs| > 0 && IsHostKey(pairs[|pairs| - 1].0)
    ensures Route(url, pairs).host == Some(pairs[|pairs| - 1].1)
  {
    SplitLast(pairs);
  }

  /**
   * Every host-like key can win: visiting the map with that key last builds a
   * request Go may send for the same map, with that key's value as Host.
   */
  lemma AnyHostValueReachable(url: string, pairs: HeaderList, i: nat)
    requires DistinctKeys(pairs)
    requires i < |pairs| && IsHostKey(pairs[i].0)
    ensures var order := pairs[..i] + pairs[i + 1..] + [pairs[i]];
      && DistinctKeys(order)
      && Route(url, order).host == Some(pairs[i].1)
      && Routed(Route(url, order), url, pairs)
  {
    var order := pairs[..i] + pairs[i + 1..] + [pairs[i]];
    assert |order| == |pairs|;
    assert forall j :: 0 <= j < |order| ==> order[j] == pairs[if j < i then j else if j < |pairs| - 1 then j + 1 else i];
    assert DistinctKeys(order) by {
      forall j1, j2 | 0 <= j1 < j2 < |order|
        ensures order[j1].0 != order[j2].0
      {
        var k1 := if j1 < i then j1 else if j1 < |pairs| - 1 then j1 + 1 else i;
        var k2 := if j2 < i then j2 else if j2 < |pairs| - 1 then j2 + 1 else i;
        assert order[j1] == pairs[k1] && order[j2] == pairs[k2] && k1 != k2;
        if k1 < k2 {
          assert pairs[k1].0 != pairs[k2].0;
        } else {
          assert pairs[k2].0 != pairs[k1].0;
        }
      }
    }
    assert forall p :: p in order <==> p in pairs by {
      forall p | p in pairs
        ensures p in order
      {
        var k :| 0 <= k < |pairs| && pairs[k] == p;
        var j := if k < i then k else if k > i then k - 1 else |pairs| - 1;
        assert order[j] == p;
      }
    }
    assert HeaderKeys(order) == HeaderKeys(pairs);
    assert HostValues(order) == HostValues(pairs);
    assert order[..|order| - 1] + [pairs[i]] == order;
  }

  /**
   * Two spellings of `host` in one map: the two visiting orders build requests
   * with different Host fields, and Go's guarantee admits both.
   */
  lemma TwoHostKeys(url: string, a: string, b: string)
    requires a != b
    ensures var pairs, swapped := [("Host", a), ("host", b)], [("host", b), ("Host", a)];
      && DistinctKeys(pairs) && DistinctKeys(swapped)
      && Route(url, pairs).host == Some(b) && Route(url, swapped).host == Some(a)
      && Routed(Route(url, pairs), url, pairs) && Routed(Route(url, swapped), url, pairs)
  {
    var pairs, swapped := [("Host", a), ("host", b)], [("host", b), ("Host", a)];
    HostKeyCharacterization("Host");
    HostKeyCharacterization("host");
    assert "Host"[0] != "host"[0];
    AnyHostValueReachable(url, pairs, 0);
    assert pairs[..0] + pairs[1..] + [pairs[0]] == swapped;
    RouteLastHostWins(url, pairs);
  }

  /** Without headers (a nil map in Go) the request is the one `http.NewRequest` built. */
  lemma RouteNoHeaders(url: string)
    ensures Route(url, []) == NewRequest(url)
  {
  }

  /** The request `http.NewRequest` built is the routed request for an empty header map. */
  lemma NewRequestRouted(url: string)
    ensures Routed(NewRequest(url), url, [])
  {
    assert HeaderKeys([]) == {} && HostValues([]) == {};
  }

  /** Without headers Go's guarantee leaves a single request: the one `http.NewRequest` built. */
  lemma RoutedNoHeaders(q: Request, url: string)
    requires Routed(q, url, [])
    ensures q == NewRequest(url)
  {
    assert HeaderKeys([]) == {} && HostValues([]) == {};
    assert q.header == map[];
  }
}

=== FILE: polling.dfy ===
/**
 * `assertHTTPResultWithRetry` and its two wrappers from
 * misc/test/examples_test.go, with the network replaced by a script of
 * attempt outcomes and the clock by the timestamp taken at the start of each
 * attempt.
 */
module Polling {
  import opened Wrappers
  import opened Headers
  import Url
  import Backoff

  /** Nanoseconds, the unit of Go's `time.Duration`. */
  const Second: int := 1_000_000_000
  const Minute: int := 60 * Second
  /** The `maxWait` that `assertHTTPResult` passes. */
  const FiveMinutes: int := 5 * Minute

  /** The dynamically typed stack output handed to the helper. */
  datatype Value = Str(s: string) | Other

  /** The result of reading a response body to the end. */
  datatype BodyRead = Body(text: string) | ReadError

  /** What `client.Do` yields for one request. */
  datatype Outcome = TransportError | Response(status: int, body: BodyRead)

  /** One attempt: the clock reading `now` taken at its start, then the network's answer. */
  datatype Attempt = Attempt(now: int, outcome: Outcome)

  /** Why the helper stopped. `OutOfScript` means the script ended before the loop decided. */
  datatype Stop = NotAString | BadRequest | Transport | Status200 | Timeout | OutOfScript

  /** What one attempt tells the loop: go round again, or leave it for the given reason. */
  datatype Step = Continue | Exit(stop: Stop)

  /**
   * The observable record of one call: why it stopped, the requests handed to
   * `client.Do`, the sleeps in seconds (one per increment of `count`), the body
   * given to `check` if it was called, and the returned boolean.
   */
  datatype Run = Run(stop: Stop, sent: seq<Request>, sleeps: seq<nat>, checked: Option<string>, passed: bool)

  /** The run of a call that fails before any request reaches the network. */
  function Rejected(stop: Stop): Run
  {
    Run(stop, [], [], None, false)
  }

  /** The decision taken right after the attempt `a` of a loop started at `start`. */
  function Verdict(a: Attempt, start: int, maxWait: int): (s: Step)
    ensures s == Exit(Transport) <==> a.outcome.TransportError?
    ensures s == Exit(Status200) <==> a.outcome.Response? && a.outcome.status == 200
    ensures s == Exit(Timeout) <==> a.outcome.Response? && a.outcome.status != 200 && a.now - start >= maxWait
    ensures s == Continue <==> a.outcome.Response? && a.outcome.status != 200 && a.now - start < maxWait
  {
    match a.outcome
    case TransportError => Exit(Transport)
    case Response(status, _) =>
      if status == 200 then Exit(Status200)
      else if a.now - start >= maxWait then Exit(Timeout)
      else Continue
  }

  /** The n-th sleep (counting from 0) lasts as long as the back-off recurrence says. */
  predicate FollowsBackoff(sleeps: seq<nat>)
  {
    forall n :: 0 <= n < |sleeps| ==> sleeps[n] == Backoff.DelayAfter(n + 1)
  }

  /** Every attempt before index `k` sent the loop round again. */
  predicate ContinuedBefore(script: seq<Attempt>, k: nat, start: int, maxWait: int)
    requires k <= |script|
  {
    forall j :: 0 <= j < k ==> Verdict(script[j], start, maxWait) == Continue
  }

  /** After the loop, `check` sees the body of the last response, if it can be read. */
  predicate FinalCheck(outcome: Outcome, check: string -> bool, r: Run)
  {
    match outcome
    case TransportError => !r.passed && r.checked == None
    case Response(_, ReadError) => !r.passed && r.checked == None
    case Response(_, Body(text)) => r.checked == Some(text) && r.passed == check(text)
  }

  /**
   * The retry loop on the address `url` with the caller's headers. Each
   * attempt ranges over the header map afresh, so each request sent only has
   * to be one that some visiting order builds.
   */
  predicate Polled(url: string, headers: HeaderList, maxWait: int, check: string -> bool, start: int,
                   script: seq<Attempt>, r: Run)
  {
    && (forall q :: q in r.sent ==> Routed(q, url, headers))
    && FollowsBackoff(r.sleeps)
    && |r.sleeps| <= |script|
    && ContinuedBefore(script, |r.sleeps|, start, maxWait)
    && (if r.stop == OutOfScript then
          |r.sleeps| == |script| && |r.sent| == |script| && !r.passed && r.checked == None
        else
          var k := |r.sleeps|;
          && k < |script|
          && |r.sent| == k + 1
          && Verdict(script[k], start, maxWait) == Exit(r.stop)
          && FinalCheck(script[k].outcome, check, r))
  }

  /**
   * Everything one call promises: the type gate, request construction, the
   * retry loop and the final body check.
   */
  predicate Conforms(output: Value, headers: HeaderList, maxWait: int, check: string -> bool,
                     urlParses: string -> bool, start: int, script: seq<Attempt>, r: Run)
    requires DistinctKeys(headers)
  {
    if !output.Str? then r == Rejected(NotAString)
    else
      var url := Url.Normalize(output.s);
      if !urlParses(url) then r == Rejected(BadRequest)
      else Polled(url, headers, maxWait, check, start, script, r)
  }

  /**
   * The clock as a real one behaves: the first attempt starts no earlier than
   * the start time, and each retry starts at least its sleep after the previous attempt.
   */
  predicate Paced(script: seq<Attempt>, start: int)
  {
    && (|script| > 0 ==> script[0].now >= start)
    && forall n :: 0 < n < |script| ==> script[n].now - script[n - 1].now >= Backoff.DelayAfter(n) * Second
  }

  /** Under a real clock, attempt `n` starts at least 10 s times `n` after the start time. */
  lemma {:induction false} ElapsedAtLeast(script: seq<Attempt>, start: int, n: nat)
    requires Paced(script, start)
    requires n < |script|
    ensures script[n].now - start >= 10 * Second * n
  {
    if n > 0 {
      ElapsedAtLeast(script, start, n - 1);
    }
  }

  /** Under a real clock, attempt `n` starts no earlier than the sleeps of the first `n` retries allow. */
  lemma {:induction false} ElapsedAtLeastDelays(script: seq<Attempt>, start: int, n: nat)
    requires Paced(script, start)
    requires n < |script|
    ensures script[n].now - start >= Backoff.TotalDelay(n) * Second
  {
    if n > 0 {
      ElapsedAtLeastDelays(script, start, n - 1);
    }
  }

  /**
   * The five-minute bound of `assertHTTPResult`: ten retries already sleep
   * 310 s, so under a real clock at most ten attempts send the loop round again.
   */
  lemma FiveMinuteRetriesAtMostTen(script: seq<Attempt>, start: int, k: nat)
    requires Paced(script, start)
    requires k <= |script|
    requires ContinuedBefore(script, k, start, FiveMinutes)
    ensures k <= 10
  {
    if k > 10 {
      ElapsedAtLeastDelays(script, start, 10);
      Backoff.FirstTenDelays();
    }
  }

  /**
   * Termination bound: under a real clock, if `k` attempts all sent the loop
   * round again, then 10 s times `k - 1` is still below `maxWait`.
   */
  lemma RetriesBounded(script: seq<Attempt>, start: int, maxWait: int, k: nat)
    requires Paced(script, start)
    requires 0 < k <= |script|
    requires ContinuedBefore(script, k, start, maxWait)
    ensures 10 * Second * (k - 1) < maxWait
  {
    ElapsedAtLeast(script, start, k - 1);
    assert Verdict(script[k - 1], start, maxWait) == Continue;
  }

  /** The code after the loop: read the last response's body and hand it to `check`. */
  function ReadAndCheck(stop: Stop, sent: seq<Request>, sleeps: seq<nat>, outcome: Outcome, check: string -> bool): (r: Run)
    requires outcome.Response?
    ensures r.stop == stop && r.sent == sent && r.sleeps == sleeps
    ensures FinalCheck(outcome, check, r)
  {
    match outcome.body
    case ReadError => Run(stop, sent, sleeps, None, false)
    case Body(text) => Run(stop, sent, sleeps, Some(text), check(text))
  }

  method AssertHttpResultWithRetry(output: Value, headers: HeaderList, maxWait: int, check: string -> bool,
                                   urlParses: string -> bool, start: int, script: seq<Attempt>)
    returns (r: Run)
    requires DistinctKeys(headers)
    ensures Conforms(output, headers, maxWait, check, urlParses, start, script, r)
    ensures forall n :: 0 <= n < |r.sleeps| ==> 10 <= r.sleeps[n] <= 40
    ensures Paced(script, start) && |r.sleeps| > 0 ==> 10 * Second * (|r.sleeps| - 1) < maxWait
    ensures output.Str? && Paced(script, start) && 0 < |script| && maxWait <= 10 * Second * (|script| - 1)
            ==> r.stop != OutOfScript
  {
    if !output.Str? {
      return Rejected(NotAString);
    }
    var hostname := Url.Normalize(output.s);
    r := RetryLoop(hostname, headers, maxWait, check, urlParses, start, script);
    if urlParses(hostname) {
      PacedRunBounds(hostname, headers, maxWait, check, start, script, r);
      PolledConforms(output, headers, maxWait, check, urlParses, start, script, r);
    } else {
      assert r == Rejected(BadRequest);
    }
  }

  /** The `for true` loop and the code after it, once the address is normalised. */
  method RetryLoop(hostname: string, headers: HeaderList, maxWait: int, check: string -> bool,
                   urlParses: string -> bool, start: int, script: seq<Attempt>)
    returns (r: Run)
    requires DistinctKeys(headers)
    ensures !urlParses(hostname) ==> r == Rejected(BadRequest)
    ensures urlParses(hostname) ==> Polled(hostname, headers, maxWait, check, start, script, r)
    ensures forall n :: 0 <= n < |r.sleeps| ==> 10 <= r.sleeps[n] <= 40
  {
    // The function-level `err`; the loop body declares an `err` of its own, so
    // nothing assigns this one before the check after the loop.
    var err: Option<string> := None;
    // The model visits the header map in the one order `headers` lists, so
    // every pass builds this request. Go may visit the map in another order
    // on each pass; `Polled` allows that.
    var req := Route(hostname, headers);
    var rejected, stop, sent, sleeps := SendUntilExit(hostname, req, maxWait, urlParses, start, script);
    if rejected {
      return Rejected(BadRequest);
    }
    SentRouted(hostname, headers, sent);
    if stop == OutOfScript || stop == Transport {
      // The script ran out, or the transport error `return`s before the error check below.
      r := Run(stop, sent, sleeps, None, false);
    } else {
      // The error check after the loop tests the function-level `err`, which is still nil.
      if err.Some? {
        assert false;
      }
      r := ReadAndCheck(stop, sent, sleeps, script[|sleeps|].outcome, check);
    }
  }

  /**
   * The `for true` loop itself: build the request `req`, send it, and either
   * leave with the attempt's exit or sleep the next back-off delay and go
   * round. `rejected` is the `http.NewRequest` failure, which returns at once.
   */
  method SendUntilExit(hostname: string, req: Request, maxWait: int, urlParses: string -> bool,
                       start: int, script: seq<Attempt>)
    returns (rejected: bool, stop: Stop, sent: seq<Request>, sleeps: seq<nat>)
    ensures rejected <==> !urlParses(hostname)
    ensures forall q :: q in sent ==> q == req
    ensures FollowsBackoff(sleeps) && |sleeps| <= |script| && ContinuedBefore(script, |sleeps|, start, maxWait)
    ensures forall n :: 0 <= n < |sleeps| ==> 10 <= sleeps[n] <= 40
    ensures !rejected && stop == OutOfScript ==> |sleeps| == |script| && |sent| == |script|
    ensures !rejected && stop != OutOfScript ==>
              |sleeps| < |script| && |sent| == |sleeps| + 1 && Verdict(script[|sleeps|], start, maxWait) == Exit(stop)
  {
    var count, sleep := 0, 0;
    sent, sleeps, stop := [], [], OutOfScript;
    while true
      invariant count <= |script|
      invariant |sent| == count && |sleeps| == count
      invariant sleep == Backoff.DelayAfter(count)
      invariant FollowsBackoff(sleeps)
      invariant forall n :: 0 <= n < count ==> 10 <= sleeps[n] <= 40
      invariant ContinuedBefore(script, count, start, maxWait)
      invariant forall q :: q in sent ==> q == req
      decreases |script| - count
    {
      if !urlParses(hostname) {
        return true, stop, sent, sleeps;
      }
      if count == |script| {
        return false, OutOfScript, sent, sleeps;
      }
      sent := sent + [req];
      var step := Verdict(script[count], start, maxWait);
      if step.Exit? {
        return false, step.stop, sent, sleeps;
      }
      count := count + 1;
      sleep := Backoff.NextDelay(sleep);
      sleeps := sleeps + [sleep];
    }
  }

  /** The one visiting order the loop uses meets Go's guarantee on every request it sent. */
  lemma SentRouted(url: string, headers: HeaderList, sent: seq<Request>)
    requires DistinctKeys(headers)
    requires forall q :: q in sent ==> q == Route(url, headers)
    ensures forall q :: q in sent ==> Routed(q, url, headers)
  {
  }

  /** A string output whose address parses conforms exactly when its loop does. */
  lemma PolledConforms(output: Value, headers: HeaderList, maxWait: int, check: string -> bool,
                       urlParses: string -> bool, start: int, script: seq<Attempt>, r: Run)
    requires DistinctKeys(headers)
    requires output.Str? && urlParses(Url.Normalize(output.s))
    requires Polled(Url.Normalize(output.s), headers, maxWait, check, start, script, r)
    ensures Conforms(output, headers, maxWait, check, urlParses, start, script, r)
  {
  }

  /** The termination bound, read off a run whose loop followed the script. */
  lemma PacedRunBounds(url: string, headers: HeaderList, maxWait: int, check: string -> bool, start: int,
                       script: seq<Attempt>, r: Run)
    requires Polled(url, headers, maxWait, check, start, script, r)
    ensures Paced(script, start) && |r.sleeps| > 0 ==> 10 * Second * (|r.sleeps| - 1) < maxWait
    ensures Paced(script, start) && 0 < |script| && maxWait <= 10 * Second * (|script| - 1)
            ==> r.stop != OutOfScript
  {
    if Paced(script, start) && |r.sleeps| > 0 {
      RetriesBounded(script, start, maxWait, |r.sleeps|);
    }
  }

  /** Retry counting: the loop leaves at the first attempt whose verdict is an exit, after one sleep per earlier attempt. */
  lemma PolledStopsAtFirstExit(url: string, headers: HeaderList, maxWait: int, check: string -> bool, start: int,
                               script: seq<Attempt>, r: Run, k: nat)
    requires Polled(url, headers, maxWait, check, start, script, r)
    requires k < |script| && ContinuedBefore(script, k, start, maxWait)
    requires Verdict(script[k], start, maxWait).Exit?
    ensures |r.sleeps| == k && |r.sent| == k + 1
    ensures r.stop == Verdict(script[k], start, maxWait).stop
  {
  }

  /** A transport error ends the call at once: no retry, no call to `check`, result false. */
  lemma TransportErrorNotRetried(url: string, headers: HeaderList, maxWait: int, check: string -> bool, start: int,
                                 script: seq<Attempt>, r: Run, k: nat)
    requires Polled(url, headers, maxWait, check, start, script, r)
    requires k < |script| && ContinuedBefore(script, k, start, maxWait)
    requires script[k].outcome.TransportError?
    ensures r.stop == Transport && |r.sent| == k + 1 && |r.sleeps| == k
    ensures !r.passed && r.checked == None
  {
    PolledStopsAtFirstExit(url, headers, maxWait, check, start, script, r, k);
  }

  /**
   * The loop's contract fixes everything but the Host field of each request:
   * two runs that meet it agree on the stop, the sleeps, the number of
   * requests, the body checked and the result; with at most one host-like
   * key they are the same run.
   */
  lemma PolledDeterministic(url: string, headers: HeaderList, maxWait: int, check: string -> bool, start: int,
                            script: seq<Attempt>, r1: Run, r2: Run)
    requires Polled(url, headers, maxWait, check, start, script, r1)
    requires Polled(url, headers, maxWait, check, start, script, r2)
    ensures r1.stop == r2.stop && r1.sleeps == r2.sleeps && |r1.sent| == |r2.sent|
    ensures r1.checked == r2.checked && r1.passed == r2.passed
    ensures AtMostOneHostKey(headers) ==> r1 == r2
  {
    if r1.stop != OutOfScript {
      PolledStopsAtFirstExit(url, headers, maxWait, check, start, script, r2, |r1.sleeps|);
    } else if r2.stop != OutOfScript {
      PolledStopsAtFirstExit(url, headers, maxWait, check, start, script, r1, |r2.sleeps|);
    }
    assert |r1.sleeps| == |r2.sleeps|;
    assert r1.sleeps == r2.sleeps;
    assert |r1.sent| == |r2.sent|;
    if AtMostOneHostKey(headers) {
      forall i | 0 <= i < |r1.sent|
        ensures r1.sent[i] == r2.sent[i]
      {
        assert r1.sent[i] in r1.sent && r2.sent[i] in r2.sent;
        RoutedUnique(r1.sent[i], r2.sent[i], url, headers);
      }
    }
  }

  /**
   * The loop reports success exactly when it read a body and `check`
   * accepted it: no other path returns true.
   */
  lemma PassedOnlyOnCheckedBody(url: string, headers: HeaderList, maxWait: int, check: string -> bool, start: int,
                                script: seq<Attempt>, r: Run)
    requires Polled(url, headers, maxWait, check, start, script, r)
    ensures r.passed <==> r.checked.Some? && check(r.checked.value)
  {
  }

  /**
   * The whole contract determines the run up to the Host field of each
   * request, and determines it completely when at most one key is host-like.
   */
  lemma ConformsDeterministic(output: Value, headers: HeaderList, maxWait: int, check: string -> bool,
                              urlParses: string -> bool, start: int, script: seq<Attempt>, r1: Run, r2: Run)
    requires DistinctKeys(headers)
    requires Conforms(output, headers, maxWait, check, urlParses, start, script, r1)
    requires Conforms(output, headers, maxWait, check, urlParses, start, script, r2)
    ensures r1.stop == r2.stop && r1.sleeps == r2.sleeps && |r1.sent| == |r2.sent|
    ensures r1.checked == r2.checked && r1.passed == r2.passed
    ensures AtMostOneHostKey(headers) ==> r1 == r2
  {
    if output.Str? && urlParses(Url.Normalize(output.s)) {
      PolledDeterministic(Url.Normalize(output.s), headers, maxWait, check, start, script, r1, r2);
    }
  }

  /** `assertHTTPResult`: the helper with a five-minute `maxWait`. */
  method AssertHttpResult(output: Value, headers: HeaderList, check: string -> bool,
                          urlParses: string -> bool, start: int, script: seq<Attempt>)
    returns (r: Run)
    requires DistinctKeys(headers)
    ensures Conforms(output, headers, FiveMinutes, check, urlParses, start, script, r)
    ensures Paced(script, start) ==> |r.sleeps| <= 30
    ensures Paced(script, start) ==> |r.sleeps| <= 10
  {
    r := AssertHttpResultWithRetry(output, headers, FiveMinutes, check, urlParses, start, script);
    if Paced(script, start) && output.Str? && urlParses(Url.Normalize(output.s)) {
      FiveMinuteRetriesAtMostTen(script, start, |r.sleeps|);
    }
  }

  /** The body the hello-world examples serve. */
  const Greeting := "Hello, World!\n"

  /** The check `assertHTTPHelloWorld` passes: the body must be exactly the greeting. */
  function HelloWorldCheck(body: string): bool
  {
    body == Greeting
  }

  /** `assertHTTPHelloWorld`: no headers, five minutes, and the exact greeting as the expected body. */
  method AssertHttpHelloWorld(output: Value, urlParses: string -> bool, start: int, script: seq<Attempt>)
    returns (r: Run)
    ensures Conforms(output, [], FiveMinutes, HelloWorldCheck, urlParses, start, script, r)
    ensures r.passed <==> r.checked == Some(Greeting)
    ensures forall q :: q in r.sent ==> q.header == map[] && q.host == None
  {
    r := AssertHttpResult(output, [], HelloWorldCheck, urlParses, start, script);
    if output.Str? && urlParses(Url.Normalize(output.s)) {
      var url := Url.Normalize(output.s);
      PassedOnlyOnCheckedBody(url, [], FiveMinutes, HelloWorldCheck, start, script, r);
      forall q | q in r.sent
        ensures q.header == map[] && q.host == None
      {
        RoutedNoHeaders(q, url);
      }
    }
  }

  /** The request each attempt of the scenarios below sends for the stack output `host` (no headers, so `Route` adds nothing). */
  function PlainRequest(host: string): Request
  {
    NewRequest(Url.Normalize(host))
  }

  /** The run of a loop that reaches a readable answer at attempt `k` after `k` attempts that continued. */
  function ExpectedRun(req: Request, stop: Stop, k: nat, text: string, check: string -> bool): Run
  {
    Run(stop, seq(k + 1, _ => req), seq(k, n requires 0 <= n < k => Backoff.DelayAfter(n + 1)), Some(text), check(text))
  }

  /**
   * Success on the k-th attempt: after k attempts that continued, a 200 answer
   * with a readable body ends the loop after k sleeps and k + 1 requests, and
   * `check` sees exactly that body.
   */
  lemma SucceedsOnFirst200(url: string, headers: HeaderList, req: Request, maxWait: int, check: string -> bool,
                           start: int, script: seq<Attempt>, k: nat, text: string)
    requires Routed(req, url, headers)
    requires k < |script| && ContinuedBefore(script, k, start, maxWait)
    requires script[k].outcome == Response(200, Body(text))
    ensures Polled(url, headers, maxWait, check, start, script, ExpectedRun(req, Status200, k, text, check))
  {
  }

  /**
   * A server that is busy twice and then greets: two non-200 answers within
   * the five-minute budget, then 200 with the greeting. `assertHTTPHelloWorld`
   * passes after exactly two retries, sleeping 10 s and then 20 s; by
   * `ConformsDeterministic` this is the only run the contract allows.
   */
  lemma HelloWorldAfterTwoRetries(host: string, urlParses: string -> bool, start: int, script: seq<Attempt>)
    requires urlParses(Url.Normalize(host))
    requires |script| == 3
    requires forall j :: 0 <= j < 2 ==>
               script[j].outcome.Response? && script[j].outcome.status != 200 && script[j].now - start < FiveMinutes
    requires script[2].outcome == Response(200, Body(Greeting))
    ensures Conforms(Str(host), [], FiveMinutes, HelloWorldCheck, urlParses, start, script,
                     ExpectedRun(PlainRequest(host), Status200, 2, Greeting, HelloWorldCheck))
    ensures ExpectedRun(PlainRequest(host), Status200, 2, Greeting, HelloWorldCheck).sleeps == [10, 20]
    ensures ExpectedRun(PlainRequest(host), Status200, 2, Greeting, HelloWorldCheck).passed
  {
    RampSleeps(PlainRequest(host), Status200, Greeting, HelloWorldCheck);
    assert Verdict(script[0], start, FiveMinutes) == Continue;
    assert Verdict(script[1], start, FiveMinutes) == Continue;
    NewRequestRouted(Url.Normalize(host));
    SucceedsOnFirst200(Url.Normalize(host), [], PlainRequest(host), FiveMinutes, HelloWorldCheck,
                       start, script, 2, Greeting);
    PolledConforms(Str(host), [], FiveMinutes, HelloWorldCheck, urlParses, start, script,
                   ExpectedRun(PlainRequest(host), Status200, 2, Greeting, HelloWorldCheck));
  }

  /** A run that retried once slept 10 s; one that retried twice slept 10 s and then 20 s. */
  lemma RampSleeps(req: Request, stop: Stop, text: string, check: string -> bool)
    ensures ExpectedRun(req, stop, 1, text, check).sleeps == [10]
    ensures ExpectedRun(req, stop, 2, text, check).sleeps == [10, 20]
  {
    var one := ExpectedRun(req, stop, 1, text, check).sleeps;
    var two := ExpectedRun(req, stop, 2, text, check).sleeps;
    assert one[0] == Backoff.DelayAfter(1) == 10;
    assert two[0] == Backoff.DelayAfter(1) == 10;
    assert two[1] == Backoff.DelayAfter(2) == 20;
  }

  /**
   * A timeout with a readable body: when attempt `k` answers with a non-200
   * status after `maxWait` has elapsed, the loop still hands that body to `check`.
   */
  lemma TimesOutWithBody(url: string, headers: HeaderList, req: Request, maxWait: int, check: string -> bool,
                         start: int, script: seq<Attempt>, k: nat, status: int, text: string)
    requires Routed(req, url, headers)
    requires k < |script| && ContinuedBefore(script, k, start, maxWait)
    requires script[k].outcome == Response(status, Body(text)) && status != 200
    requires script[k].now - start >= maxWait
    ensures Polled(url, headers, maxWait, check, start, script, ExpectedRun(req, Timeout, k, text, check))
  {
  }

  /**
   * On a timeout the body of the last, non-200 response still reaches the
   * check. With a one-second budget, a 500 answered at the start is retried;
   * a second 500, ten seconds later, times out, and because its page carries
   * the greeting `assertHTTPHelloWorld`'s check passes.
   */
  lemma TimeoutChecksErrorPage(host: string, urlParses: string -> bool, start: int, script: seq<Attempt>)
    requires urlParses(Url.Normalize(host))
    requires |script| == 2
    requires script[0] == Attempt(start, Response(500, Body(Greeting)))
    requires script[1] == Attempt(start + 10 * Second, Response(500, Body(Greeting)))
    ensures Conforms(Str(host), [], Second, HelloWorldCheck, urlParses, start, script,
                     ExpectedRun(PlainRequest(host), Timeout, 1, Greeting, HelloWorldCheck))
    ensures ExpectedRun(PlainRequest(host), Timeout, 1, Greeting, HelloWorldCheck).sleeps == [10]
    ensures ExpectedRun(PlainRequest(host), Timeout, 1, Greeting, HelloWorldCheck).passed
  {
    RampSleeps(PlainRequest(host), Timeout, Greeting, HelloWorldCheck);
    assert Verdict(script[0], start, Second) == Continue;
    NewRequestRouted(Url.Normalize(host));
    TimesOutWithBody(Url.Normalize(host), [], PlainRequest(host), Second, HelloWorldCheck,
                     start, script, 1, 500, Greeting);
    PolledConforms(Str(host), [], Second, HelloWorldCheck, urlParses, start, script,
                   ExpectedRun(PlainRequest(host), Timeout, 1, Greeting, HelloWorldCheck));
  }

  /**
   * Go visits the header map in a fresh order on every attempt, so with two
   * host-like keys the retried request may carry the other Host value: the
   * contract admits a run whose two requests differ in their Host field.
   */
  lemma HostMayVaryAcrossAttempts(url: string, a: string, b: string, check: string -> bool, start: int)
    requires a != b
    ensures var headers := [("Host", a), ("host", b)];
      && DistinctKeys(headers)
      && Route(url, headers).host != Route(url, [("host", b), ("Host", a)]).host
      && Polled(url, headers, FiveMinutes, check, start,
                [Attempt(start, Response(503, Body(""))), Attempt(start + 10 * Second, Response(200, Body("")))],
                Run(Status200, [Route(url, headers), Route(url, [("host", b), ("Host", a)])], [10], Some(""), check("")))
  {
    TwoHostKeys(url, a, b);
    var script := [Attempt(start, Response(503, Body(""))), Attempt(start + 10 * Second, Response(200, Body("")))];
    assert Verdict(script[0], start, FiveMinutes) == Continue;
    SecondAttemptSucceeds(url, [("Host", a), ("host", b)], Route(url, [("Host", a), ("host", b)]),
                          Route(url, [("host", b), ("Host", a)]), FiveMinutes, check, start, script, "");
  }

  /**
   * A retry followed by a 200: any two requests Go may build for the header
   * map, a 10 s sleep between them, and the second body checked.
   */
  lemma SecondAttemptSucceeds(url: string, headers: HeaderList, q1: Request, q2: Request, maxWait: int,
                              check: string -> bool, start: int, script: seq<Attempt>, text: string)
    requires Routed(q1, url, headers) && Routed(q2, url, headers)
    requires |script| == 2 && Verdict(script[0], start, maxWait) == Continue
    requires script[1].outcome == Response(200, Body(text))
    ensures Polled(url, headers, maxWait, check, start, script, Run(Status200, [q1, q2], [10], Some(text), check(text)))
  {
    assert Backoff.DelayAfter(1) == 10;
  }
}

=== FILE: url.dfy ===
/**
 * Scheme defaulting of the target address: `http://` is prepended unless the
 * address already starts with `http://` or `https://` (compared case-sensitively,
 * as `strings.HasPrefix` does).
 */
module Url {

  predicate HasPrefix(s: string, prefix: string)
  {
    |prefix| <= |s| && forall i :: 0 <= i < |prefix| ==> s[i] == prefix[i]
  }

  /** The address names one of the two schemes the helper recognises. */
  predicate HasScheme(s: string)
  {
    HasPrefix(s, "http://") || HasPrefix(s, "https://")
  }

  function Normalize(hostname: string): (url: string)
    ensures HasScheme(url)
    ensures HasScheme(hostname) ==> url == hostname
    ensures !HasScheme(hostname) ==> url == "http://" + hostname
    ensures |hostname| <= |url| && url[|url| - |hostname|..] == hostname
  {
    if HasScheme(hostname) then hostname else "http://" + hostname
  }

  /** Normalising an address twice gives the same address as normalising it once. */
  lemma NormalizeIdempotent(hostname: string)
    ensures Normalize(Normalize(hostname)) == Normalize(hostname)
  {
  }

  /** The helper only ever adds the seven characters of `http://`, and only when needed. */
  lemma NormalizeAddsAtMostScheme(hostname: string)
    ensures Normalize(hostname) == hostname <==> HasScheme(hostname)
    ensures Normalize(hostname) != hostname ==> |Normalize(hostname)| == |hostname| + 7
  {
  }

  /** An address that is empty or whose first character is not a lower-case `h` names neither scheme. */
  lemma NoSchemeUnlessLowerH(s: string)
    requires |s| == 0 || s[0] != 'h'
    ensures !HasScheme(s)
    ensures Normalize(s) == "http://" + s
  {
  }

  /**
   * A bare host gets the default scheme, and so does one whose scheme is
   * written in upper case, since the test is case-sensitive.
   */
  lemma NormalizeBareHost()
    ensures Normalize("example.com") == "http://" + "example.com"
    ensures Normalize("HTTPS://example.com") == "http://" + "HTTPS://example.com"
  {
    NoSchemeUnlessLowerH("example.com");
    NoSchemeUnlessLowerH("HTTPS://example.com");
  }

  lemma NormalizeKeepsHttps()
    ensures Normalize("https://example.com") == "https://example.com"
  {
    assert HasPrefix("https://example.com", "https://");
  }
}

=== FILE: wrappers.dfy ===
/** The optional-value datatype shared by the request model and the run record. */
module Wrappers {

  datatype Option<+T> = None | Some(value: T)
}
